=== FILE: README.md ===
# browser-storage-actions in Dafny

`createLocalStorageActions({ nameSpace, localStorage })` builds a namespaced
item store on top of the browser's flat key/value storage. Every item
`{ name, value }` is kept as the JSON text of the whole item under the key
`nameSpace + "__" + name`. The factory returns seven actions:

- `hasItem`
- `addItem`, which refuses a name already present
- `getItemByName`
- `getAllItemsForNameSpace`
- `updateItem`, which refuses an absent name
- `removeItemByName`, which refuses an absent name
- `removeAllItemsForNameSpace`

A refusal throws one of four errors: failed to parse, item not found,
conflicting item name, and item not removable.

The repository holds two copies of the factory that differ only in their type
imports:
- `src/localStorageActions/localStorageActions.ts`
- `src/localStorage/localStorageActions.ts`

One model covers both. The table cites the first copy. The same code sits 5
lines lower in the second.

The modules:

- `Models`: items, the four error kinds, `Option`/`Result`, and the JSON
  codec as a pair of function values (`encode` for `JSON.stringify`, `decode`
  for `JSON.parse`, which yields `None` where `JSON.parse` throws).
- `BackingStore`: the `localStorage` object.
  - It is an ordered sequence of (key, raw string) pairs with unique keys.
  - Order is the order `Object.keys` / `Object.entries` enumerate.
  - `setItem` overwrites a present key in place and appends a new one.
  - `removeItem` closes the gap.
  - Filtering (`KeepKeys`) models `Array.prototype.filter` over the entries.
- `NameSpace`: key derivation and the name-space test. The source decides
  whether a key belongs to the name space with
  `key.slice(0, nameSpace.length) === nameSpace`. That is a raw prefix test
  that ignores the separator. The model keeps this behaviour and proves where
  it reaches:
  - a name space claims every key of any longer name space it is a prefix of;
  - names containing `__` can make two name spaces share a key.
- `LocalStorageActions`: the helpers and the seven actions.
  - They are pure functions of the store.
  - A throw becomes an `Err`, and a writing action also returns the store it
    leaves behind.
  - A call that throws leaves the store as it was.
- `ActionProperties`: how calls compose.
  - Reading back after an add or an update gives the item back.
  - A second add under the same name conflicts.
  - A removal affects one name only.
  - Enumeration order is insertion order.
  - After removing everything, nothing is left.
  - No write reaches a key outside the name space.
  - One item's full life cycle.
- `ActionMachine`: the returned object as a state machine.
  - One step per call, and runs of several calls.
  - Each call can raise only its own error kinds.
  - Reads never change the store.
- `FixtureScenarios`: the test suite's fixture, five items seeded in a fixed
  order, with the suite's expectations proved over the name space and the raw
  contents, under two conditions:
  - The scenarios with a foreign item need a second name space that the
    first one's test does not reach. No such name space exists when the first
    is the empty string, since it is a prefix of every key.
  - The scenarios that read items back (`FixtureGetAll`, `FixtureGetArray`)
    need the raw contents to be the items' JSON texts and to parse back to
    those items.

## Model

| member | source | states |
|---|---|---|
| NameSpace.Slice | src/localStorageActions/localStorageActions.ts:13 | `String.prototype.slice` with clamping: within bounds it is the substring; an end past the string cuts at the string's end; a start at or past the end gives the empty string; it is never longer than the string |
| NameSpace.CheckKeyForNameSpace | src/localStorageActions/localStorageActions.ts:12-14 | the name-space test: the key starts with the bare name space; the separator takes no part, so "ab__x" belongs to "a" |
| NameSpace.CheckIsPrefix | src/localStorageActions/localStorageActions.ts:12-14 | the test holds exactly when the key is at least as long as the name space and agrees with it character by character |
| NameSpace.KeyForName | src/localStorageActions/localStorageActions.ts:16-18 | the key of a name is the name space, the separator and the name; it always passes the name-space test |
| NameSpace.NameOfKeyForName | src/localStorageActions/localStorageActions.ts:16-18 | the name can be read back out of its key: key derivation is invertible |
| NameSpace.KeyForNameInjective | src/localStorageActions/localStorageActions.ts:16-18 | within one name space distinct names have distinct keys |
| NameSpace.NameOfKeyInverse | src/localStorageActions/localStorageActions.ts:16-18 | every key that reads back as a name is exactly that name's key |
| NameSpace.CheckIsSlice | src/localStorageActions/localStorageActions.ts:12-14 | the test "the first `nameSpace.length` characters of the key equal the name space" holds exactly when the name space is a prefix of the key, including keys shorter than the name space |
| NameSpace.ShorterNameSpaceClaims | src/localStorageActions/localStorageActions.ts:12-18 | a name space passes the test on a key of a longer name space exactly when it is that name space's prefix |
| NameSpace.CheckIgnoresSeparator | src/localStorageActions/localStorageActions.ts:12-14 | the key "ab__x" passes the test of name space "a" although it is no key of the form "a__name" |
| NameSpace.KeysCollideAcrossNameSpaces | src/localStorageActions/localStorageActions.ts:16-18 | name "b__c" in name space "a" and name "c" in name space "a__b" share one key |
| BackingStore.Keys | src/localStorageActions/localStorageActions.ts:22 | definition: `Object.keys` lists one key per entry, in enumeration order |
| BackingStore.KeysIsKeysInOrder | src/localStorageActions/localStorageActions.ts:22 | the listing equals the walk of the storage map that takes the first entry's key and then the keys of the rest, so nothing is listed twice, dropped or reordered |
| BackingStore.KeysMember | src/localStorageActions/localStorageActions.ts:22 | a key is listed exactly when some entry carries it |
| BackingStore.GetItem | src/localStorageActions/localStorageActions.ts:50 | `getItem` finds a value exactly for a present key, and that value is the one stored under it |
| BackingStore.IndexOf | src/localStorageActions/localStorageActions.ts:22 | a present key sits at exactly one position |
| BackingStore.SetItem | src/localStorageActions/localStorageActions.ts:43 | `setItem` replaces a present key's entry at its position and appends a new key at the end, keeping keys unique |
| BackingStore.RemoveItem | src/localStorageActions/localStorageActions.ts:83 | `removeItem` deletes a present key's entry, the rest keeping their order, and leaves the store unchanged for an absent key |
| BackingStore.KeepKeys | src/localStorageActions/localStorageActions.ts:58-60 | filtering keeps exactly the entries whose key passes, and keeps keys unique |
| BackingStore.KeepKeysAppend | src/localStorageActions/localStorageActions.ts:58-60 | filtering distributes over concatenation, so it keeps enumeration order |
| BackingStore.KeepKeysTwice | src/localStorageActions/localStorageActions.ts:89-95 | filtering twice equals filtering once by the conjunction |
| BackingStore.RemoveItemIsKeepKeys | src/localStorageActions/localStorageActions.ts:83 | removing a key is filtering that key out |
| BackingStore.GetItemKeepKeys | src/localStorageActions/localStorageActions.ts:58-60 | after filtering, a kept key reads as before and a dropped key reads as absent |
| BackingStore.SetItemGetItem | src/localStorageActions/localStorageActions.ts:43 | after `setItem(k, v)` key k reads v and every other key reads as before |
| BackingStore.RemoveItemGetItem | src/localStorageActions/localStorageActions.ts:83 | after `removeItem(k)` key k is absent and every other key reads as before |
| LocalStorageActions.EntriesForNameSpace | src/localStorageActions/localStorageActions.ts:58-60 | the entries the "all" actions act on are exactly those whose key passes the name-space test |
| LocalStorageActions.CheckLocalStorageForName | src/localStorageActions/localStorageActions.ts:20-23 | the name counts as stored when its derived key is among the store's keys |
| LocalStorageActions.CheckLocalStorageForNameScans | src/localStorageActions/localStorageActions.ts:20-23 | the name counts as stored exactly when some entry carries the name's key |
| LocalStorageActions.TryToParseRawValue | src/localStorageActions/localStorageActions.ts:25-31 | definition: a text that `JSON.parse` accepts gives the decoded item, one it rejects gives `FailedToParse`, as the try/catch does |
| LocalStorageActions.HasItem | src/localStorageActions/localStorageActions.ts:20-35 | `hasItem` holds exactly when the store finds a value under the name's key |
| LocalStorageActions.AddItem | src/localStorageActions/localStorageActions.ts:37-45 | a present name throws the conflict with the store untouched; otherwise the item is returned and its JSON is appended under its key |
| LocalStorageActions.GetItemByName | src/localStorageActions/localStorageActions.ts:47-55 | `ItemNotFound` exactly for an absent name, `FailedToParse` exactly when the stored text does not decode, otherwise the decoded stored item |
| LocalStorageActions.ParseEach | src/localStorageActions/localStorageActions.ts:61-66 | the fold succeeds exactly when every raw value decodes, keeping the accumulator as a prefix and each decoded item at its entry's position; otherwise `FailedToParse` |
| LocalStorageActions.GetAllItemsForNameSpace | src/localStorageActions/localStorageActions.ts:57-67 | succeeds exactly when every entry passing the name-space test decodes, listing one decoded item per such entry in enumeration order; otherwise `FailedToParse` |
| LocalStorageActions.UpdateItem | src/localStorageActions/localStorageActions.ts:69-78 | an absent name throws `ItemNotFound` with the store untouched; otherwise the item is returned and its JSON replaces the entry in place |
| LocalStorageActions.RemoveItemByName | src/localStorageActions/localStorageActions.ts:80-87 | an absent name throws `ItemNotRemovable` with the store untouched; otherwise exactly the name's entry is deleted |
| LocalStorageActions.RemoveEach | src/localStorageActions/localStorageActions.ts:93-95 | removing a list of keys one by one equals filtering out every key in the list |
| LocalStorageActions.RemoveAllItemsForNameSpace | src/localStorageActions/localStorageActions.ts:89-96 | what remains is exactly the entries whose key fails the name-space test, in their original order |
| ActionProperties.HasItemAfterAdd | src/localStorageActions/localStorageActions.ts:33-45 | after adding a fresh item its name is present and every other name is as before |
| ActionProperties.GetAfterAdd | src/localStorageActions/localStorageActions.ts:37-55 | reading a freshly added item back gives the item, when its JSON round-trips |
| ActionProperties.AddTwiceConflicts | src/localStorageActions/localStorageActions.ts:37-45 | a second add under the same name throws the conflict and keeps the store the first add left |
| ActionProperties.GetAfterUpdate | src/localStorageActions/localStorageActions.ts:47-78 | an update keeps the key sequence and the name then reads back the new item |
| ActionProperties.UpdateLeavesOtherNames | src/localStorageActions/localStorageActions.ts:47-78 | an update changes what no other name reads |
| ActionProperties.HasItemAfterRemove | src/localStorageActions/localStorageActions.ts:33-87 | after removing a name it is absent and every other name is as before |
| ActionProperties.GetAllAfterAdd | src/localStorageActions/localStorageActions.ts:37-67 | adding a fresh item appends it at the end of the listing |
| ActionProperties.ParseEachSnoc | src/localStorageActions/localStorageActions.ts:61-66 | extending the fold by one entry extends its result by that entry's item, or fails |
| ActionProperties.EntriesForNameSpaceSnoc | src/localStorageActions/localStorageActions.ts:58-60 | appending an entry of the name space appends it to the name space's entries |
| ActionProperties.NothingLeftAfterRemoveAll | src/localStorageActions/localStorageActions.ts:57-96 | after removing everything the listing is empty and no name is present |
| ActionProperties.RemoveAllKeepsForeignKeys | src/localStorageActions/localStorageActions.ts:89-96 | removing everything leaves every key outside the name space reading as before |
| ActionProperties.RemoveAllReachesLongerNameSpace | src/localStorageActions/localStorageActions.ts:89-96 | removing everything of a name space also empties every longer name space it is a prefix of |
| ActionProperties.GetAllReachesLongerNameSpace | src/localStorageActions/localStorageActions.ts:57-67 | an unparsable item of a longer name space that has the name space as prefix makes the listing throw `FailedToParse` |
| ActionProperties.GetAllOfEncoded | src/localStorageActions/localStorageActions.ts:57-67 | when the name space's entries are the stringified items in order and each parses back, the listing is exactly those items |
| ActionProperties.UnparsableEntryFailsGetAll | src/localStorageActions/localStorageActions.ts:57-67 | one unparsable entry of the name space makes the listing throw `FailedToParse` |
| ActionProperties.WritesKeepForeignKeys | src/localStorageActions/localStorageActions.ts:37-96 | no write action changes what a key outside the name space reads |
| ActionProperties.LifeCycle | src/localStorageActions/localStorageActions.ts:37-87 | add, read back, refused second add, update, read back, remove: each step has the documented result and the name is then gone |
| ActionMachine.AddStep | src/localStorageActions/localStorageActions.ts:37-45 | `addItem` called through the returned object can fail only with the conflict, and then the store is untouched |
| ActionMachine.GetStep | src/localStorageActions/localStorageActions.ts:47-55 | `getItemByName` called through the returned object never changes the store and can fail only with item not found or failed to parse |
| ActionMachine.GetAllStep | src/localStorageActions/localStorageActions.ts:57-67 | `getAllItemsForNameSpace` called through the returned object never changes the store and can fail only with failed to parse |
| ActionMachine.UpdateStep | src/localStorageActions/localStorageActions.ts:69-78 | `updateItem` called through the returned object can fail only with item not found, and then the store is untouched |
| ActionMachine.RemoveStep | src/localStorageActions/localStorageActions.ts:80-87 | `removeItemByName` called through the returned object can fail only with item not removable, and then the store is untouched |
| ActionMachine.Step | src/localStorageActions/localStorageActions.ts:98-106 | a call raises only its own error kinds, a call that throws leaves the store unchanged, and the three reading calls never change it |
| ActionMachine.StepKeepsForeignKeys | src/localStorageActions/localStorageActions.ts:98-106 | no call changes what a key outside the name space reads |
| ActionMachine.Run | src/localStorageActions/localStorageActions.ts:98-106 | a run yields one result per call, each error among that call's kinds, and a run of reading calls leaves the store unchanged |
| FixtureScenarios.Seed | src/localStorageActions/localStorageActions.test.ts:18-25 | starting from the cleared store, `setItem` of the first n names one after another leaves their keys in seeding order, each with its raw value |
| FixtureScenarios.Fixture | src/localStorageActions/localStorageActions.test.ts:18-25 | the seeded store holds the five names' keys in seeding order |
| FixtureScenarios.SuiteNameSpacesAreForeign | src/localStorageActions/localStorageActions.test.ts:132 | the suite's second name space is not reached by the first one's test |
| FixtureScenarios.FixtureHasItem | src/localStorageActions/localStorageActions.test.ts:27-37 | "number" is present and "other" is not |
| FixtureScenarios.FixtureAddConflict | src/localStorageActions/localStorageActions.test.ts:71-83 | adding "number" again throws the conflict and leaves keys and order as seeded |
| FixtureScenarios.FixtureUpdateMissing | src/localStorageActions/localStorageActions.test.ts:97-109 | updating "other" throws `ItemNotFound` and leaves the store as seeded |
| FixtureScenarios.FixtureMissingName | src/localStorageActions/localStorageActions.test.ts:121-178 | reading "other" throws `ItemNotFound`, removing it throws `ItemNotRemovable` |
| FixtureScenarios.FixtureRemoveNumber | src/localStorageActions/localStorageActions.test.ts:162-173 | removing "number" leaves the other four keys in seeding order |
| FixtureScenarios.WithForeignItem | src/localStorageActions/localStorageActions.test.ts:184-188 | a foreign item is appended after the five seeded ones |
| FixtureScenarios.FixtureRemoveAll | src/localStorageActions/localStorageActions.test.ts:190-194 | removing everything leaves only the foreign item |
| FixtureScenarios.ForeignItemFilteredOut | src/localStorageActions/localStorageActions.test.ts:131-143 | the name-space filter keeps the five seeded entries in order and drops the foreign one |
| FixtureScenarios.FixtureGetAll | src/localStorageActions/localStorageActions.test.ts:131-143 | the listing is the five seeded items in seeding order, without the foreign one |
| FixtureScenarios.EmptyGetAll | src/localStorageActions/localStorageActions.test.ts:145-149 | an empty store lists no items |
| FixtureScenarios.CorruptedGetAll | src/localStorageActions/localStorageActions.test.ts:151-156 | a store whose one entry of the name space does not parse makes the listing throw `FailedToParse` |
| FixtureScenarios.FixtureGetArray | src/localStorageActions/localStorageActions.test.ts:115-119 | reading "array" gives the seeded item |

## Left out

- The host storage object itself. It is a value here, not a shared mutable
  object. Left out with it are the members of `Storage` the actions do not
  call. `Object.keys` and `Object.entries` list a `Storage` object's named
  properties in the order of its storage map. The HTML Standard ends both
  `setItem` of a new key and `removeItem` with a step that may reorder the
  map, so a browser is free to choose the order. The model takes the order to
  be insertion order, with an overwritten key keeping its place. That is the
  order of jsdom, whose `Storage` is backed by a JavaScript `Map` and which
  hosts the test suite. `GetAllAfterAdd`, `FixtureRemoveNumber`,
  `FixtureAddConflict` and the other order claims describe jsdom, not every
  browser. The suite's
  `clear` is modelled only as starting from the empty store.
- LocalStorageActions.HasItem, LocalStorageActions.AddItem,
  LocalStorageActions.GetItemByName, LocalStorageActions.GetAllItemsForNameSpace
  and LocalStorageActions.RemoveAllItemsForNameSpace: Web IDL hides a stored key from
  `Object.keys` and `Object.entries` when the key names a property the
  `Storage` object inherits. An example is `__proto__`, the key of name
  `proto__` in the empty name space. For such a key `hasItem` stays false
  after an add, a second add overwrites instead of conflicting,
  `getItemByName` throws item not found, and the "all" actions skip it. The
  model's `Keys` lists every stored key. So these are not promised for those
  keys in the host:
  - `HasItemAfterAdd`, `GetAfterAdd`, `AddTwiceConflicts` and `LifeCycle`;
  - `GetAllAfterAdd` and `NothingLeftAfterRemoveAll`;
  - the second ensures of `RemoveAllItemsForNameSpace`, that no key of the
    name space is left.
- LocalStorageActions.AddItem: a `setItem` that throws (the host's storage
  quota exceeded, say) is not modelled. That exception would reach the caller
  unwrapped as a fifth kind of failure. In the model a fresh name always
  succeeds.
- LocalStorageActions.UpdateItem: likewise, a throwing `setItem` is not
  modelled, and a present name always succeeds.
- JSON. The codec is a parameter. The model does not encode the JSON grammar,
  `JSON.stringify`'s own failures (cyclic values, `BigInt`), or whether
  `JSON.parse` of a text yields something shaped like an item.
- GetItemByName: like the source, it does not check that the decoded item's
  `name` equals the requested name.
- The unchecked `as` casts and the `Value` type parameter's erasure.
- The error message strings. Only the four error kinds are modelled.
- Strings as UTF-16 code units. Dafny's `char` stands for one character.
- The type-only files (`localStorageActions.models.ts`, `models.ts`,
  `domain.ts`), `index.ts` and the test harness itself.
- Concurrent writers to the same storage.

=== FILE: action_machine.dfy ===
/**
 * The object `createLocalStorageActions` returns, seen as a state machine
 * over the store: one `Step` per call, with the error discipline every call
 * keeps.
 */
module ActionMachine {
  import opened Models
  import opened BackingStore
  import opened NameSpace
  import opened LocalStorageActions
  import opened ActionProperties

  /** One call on the actions object. */
  datatype Call<V> =
    | HasItemCall(name: string)
    | AddItemCall(item: Item<V>)
    | GetItemByNameCall(name: string)
    | GetAllItemsForNameSpaceCall
    | UpdateItemCall(item: Item<V>)
    | RemoveItemByNameCall(name: string)
    | RemoveAllItemsForNameSpaceCall

  /** What a call returns when it does not throw. */
  datatype Answer<V> = Bool(b: bool) | One(item: Item<V>) | All(items: seq<Item<V>>) | Nothing

  /** The error kinds each call may throw. */
  function RaisedBy<V>(call: Call<V>): set<ActionError>
  {
    match call
    case HasItemCall(_) => {}
    case AddItemCall(_) => {ItemNotAddableConflictingItemName}
    case GetItemByNameCall(_) => {ItemNotFound, FailedToParse}
    case GetAllItemsForNameSpaceCall => {FailedToParse}
    case UpdateItemCall(_) => {ItemNotFound}
    case RemoveItemByNameCall(_) => {ItemNotRemovable}
    case RemoveAllItemsForNameSpaceCall => {}
  }

  /** The calls that only read. */
  predicate IsRead<V>(call: Call<V>)
  {
    call.HasItemCall? || call.GetItemByNameCall? || call.GetAllItemsForNameSpaceCall?
  }

  /** `addItem` as a step. */
  function AddStep<V>(deps: Dependencies<V>, s: Store, item: Item<V>): (r: Reply<Answer<V>>)
    ensures r.result.Err? ==> r.result.error == ItemNotAddableConflictingItemName && r.store == s
  {
    var a := AddItem(deps, s, item);
    if a.result.Ok? then Reply(Ok(One(a.result.value)), a.store) else Reply(Err(a.result.error), a.store)
  }

  /** `getItemByName` as a step. */
  function GetStep<V>(deps: Dependencies<V>, s: Store, name: string): (r: Reply<Answer<V>>)
    ensures r.store == s
    ensures r.result.Err? ==> r.result.error in {ItemNotFound, FailedToParse}
  {
    var g := GetItemByName(deps, s, name);
    if g.Ok? then Reply(Ok(One(g.value)), s) else Reply(Err(g.error), s)
  }

  /** `getAllItemsForNameSpace` as a step. */
  function GetAllStep<V>(deps: Dependencies<V>, s: Store): (r: Reply<Answer<V>>)
    ensures r.store == s
    ensures r.result.Err? ==> r.result.error == FailedToParse
  {
    var g := GetAllItemsForNameSpace(deps, s);
    if g.Ok? then Reply(Ok(All(g.value)), s) else Reply(Err(g.error), s)
  }

  /** `updateItem` as a step. */
  function UpdateStep<V>(deps: Dependencies<V>, s: Store, item: Item<V>): (r: Reply<Answer<V>>)
    ensures r.result.Err? ==> r.result.error == ItemNotFound && r.store == s
  {
    var u := UpdateItem(deps, s, item);
    if u.result.Ok? then Reply(Ok(One(u.result.value)), u.store) else Reply(Err(u.result.error), u.store)
  }

  /** `removeItemByName` as a step. */
  function RemoveStep<V>(deps: Dependencies<V>, s: Store, name: string): (r: Reply<Answer<V>>)
    ensures r.result.Err? ==> r.result.error == ItemNotRemovable && r.store == s
  {
    var d := RemoveItemByName(deps, s, name);
    if d.result.Ok? then Reply(Ok(Nothing), d.store) else Reply(Err(d.result.error), d.store)
  }

  /**
   * One call. A call that throws leaves the store as it was, a reading call
   * never changes it, and no call throws an error kind outside its own.
   */
  function Step<V>(deps: Dependencies<V>, s: Store, call: Call<V>): (r: Reply<Answer<V>>)
    ensures r.result.Err? ==> r.result.error in RaisedBy(call)
    ensures r.result.Err? || IsRead(call) ==> r.store == s
  {
    match call
    case HasItemCall(name) => Reply(Ok(Bool(HasItem(deps, s, name))), s)
    case AddItemCall(item) => AddStep(deps, s, item)
    case GetItemByNameCall(name) => GetStep(deps, s, name)
    case GetAllItemsForNameSpaceCall => GetAllStep(deps, s)
    case UpdateItemCall(item) => UpdateStep(deps, s, item)
    case RemoveItemByNameCall(name) => RemoveStep(deps, s, name)
    case RemoveAllItemsForNameSpaceCall => Reply(Ok(Nothing), RemoveAllItemsForNameSpace(deps, s))
  }

  /** No call changes what a key outside the name space reads. */
  lemma StepKeepsForeignKeys<V>(deps: Dependencies<V>, s: Store, call: Call<V>, k: string)
    requires !CheckKeyForNameSpace(deps.nameSpace, k)
    ensures GetItem(Step(deps, s, call).store, k) == GetItem(s, k)
  {
    match call
    case AddItemCall(item) => WritesKeepForeignKeys(deps, s, item, "", k);
    case UpdateItemCall(item) => WritesKeepForeignKeys(deps, s, item, "", k);
    case RemoveItemByNameCall(name) => RemoveItemGetItem(s, KeyForName(deps.nameSpace, name), k);
    case RemoveAllItemsForNameSpaceCall => RemoveAllKeepsForeignKeys(deps, s, k);
    case HasItemCall(_) =>
    case GetItemByNameCall(_) =>
    case GetAllItemsForNameSpaceCall =>
  }

  /** The results of a sequence of calls and the store they leave. */
  datatype Trace<V> = Trace(results: seq<Result<Answer<V>>>, store: Store)

  /** Make the calls one after another, each on the store the previous one left. */
  function Run<V>(deps: Dependencies<V>, s: Store, calls: seq<Call<V>>): (t: Trace<V>)
    ensures |t.results| == |calls|
    ensures (forall i :: 0 <= i < |calls| ==> IsRead(calls[i])) ==> t.store == s
    ensures forall i :: 0 <= i < |calls| && t.results[i].Err? ==> t.results[i].error in RaisedBy(calls[i])
    decreases |calls|
  {
    if calls == [] then Trace([], s)
    else
      var first := Step(deps, s, calls[0]);
      var rest := Run(deps, first.store, calls[1..]);
      assert forall i :: 0 < i < |calls| ==> calls[1..][i - 1] == calls[i];
      var t := Trace([first.result] + rest.results, rest.store);
      assert forall i :: 0 < i < |calls| ==> t.results[i] == rest.results[i - 1];
      t
  }
}

=== FILE: action_properties.dfy ===
/** How the actions compose: what a later call sees after an earlier one. */
module ActionProperties {
  import opened Models
  import opened BackingStore
  import opened NameSpace
  import opened LocalStorageActions

  /** After a successful `addItem`, `hasItem` holds for its name and is unchanged for every other name. */
  lemma HasItemAfterAdd<V>(deps: Dependencies<V>, s: Store, item: Item<V>, name: string)
    requires !HasItem(deps, s, item.name)
    ensures HasItem(deps, AddItem(deps, s, item).store, name) == (name == item.name || HasItem(deps, s, name))
  {
    var key := KeyForName(deps.nameSpace, item.name);
    SetItemGetItem(s, key, deps.json.encode(item), KeyForName(deps.nameSpace, name));
    KeyForNameInjective(deps.nameSpace, name, item.name);
  }

  /** Get after add: reading back a freshly added item gives the item, if its encoding parses back. */
  lemma GetAfterAdd<V>(deps: Dependencies<V>, s: Store, item: Item<V>)
    requires !HasItem(deps, s, item.name)
    requires RoundTrips(deps.json, item)
    ensures GetItemByName(deps, AddItem(deps, s, item).store, item.name) == Ok(item)
  {
    var key := KeyForName(deps.nameSpace, item.name);
    SetItemGetItem(s, key, deps.json.encode(item), key);
  }

  /** A second `addItem` under the same name conflicts and leaves the first one's store. */
  lemma AddTwiceConflicts<V>(deps: Dependencies<V>, s: Store, first: Item<V>, second: Item<V>)
    requires first.name == second.name
    ensures var s1 := AddItem(deps, s, first).store;
            AddItem(deps, s1, second) == Reply(Err(ItemNotAddableConflictingItemName), s1)
  {
    if !HasItem(deps, s, first.name) {
      HasItemAfterAdd(deps, s, first, second.name);
    }
  }

  /** After a successful `updateItem` the key sequence is the same and the name reads back the new item. */
  lemma GetAfterUpdate<V>(deps: Dependencies<V>, s: Store, item: Item<V>)
    requires HasItem(deps, s, item.name)
    requires RoundTrips(deps.json, item)
    ensures Keys(UpdateItem(deps, s, item).store) == Keys(s)
    ensures GetItemByName(deps, UpdateItem(deps, s, item).store, item.name) == Ok(item)
  {
    var key := KeyForName(deps.nameSpace, item.name);
    SetItemGetItem(s, key, deps.json.encode(item), key);
  }

  /** `updateItem` on one name changes nothing another name reads. */
  lemma UpdateLeavesOtherNames<V>(deps: Dependencies<V>, s: Store, item: Item<V>, name: string)
    requires name != item.name
    ensures GetItemByName(deps, UpdateItem(deps, s, item).store, name) == GetItemByName(deps, s, name)
  {
    var key := KeyForName(deps.nameSpace, item.name);
    SetItemGetItem(s, key, deps.json.encode(item), KeyForName(deps.nameSpace, name));
    KeyForNameInjective(deps.nameSpace, name, item.name);
  }

  /** After `removeItemByName`, `hasItem` fails for that name and is unchanged for every other name. */
  lemma HasItemAfterRemove<V>(deps: Dependencies<V>, s: Store, removed: string, name: string)
    ensures HasItem(deps, RemoveItemByName(deps, s, removed).store, name) == (name != removed && HasItem(deps, s, name))
  {
    RemoveItemGetItem(s, KeyForName(deps.nameSpace, removed), KeyForName(deps.nameSpace, name));
    KeyForNameInjective(deps.nameSpace, name, removed);
  }

  /**
   * Adding a fresh item appends it to what `getAllItemsForNameSpace` lists:
   * enumeration order is insertion order.
   */
  lemma GetAllAfterAdd<V>(deps: Dependencies<V>, s: Store, item: Item<V>, items: seq<Item<V>>)
    requires !HasItem(deps, s, item.name)
    requires RoundTrips(deps.json, item)
    requires GetAllItemsForNameSpace(deps, s) == Ok(items)
    ensures GetAllItemsForNameSpace(deps, AddItem(deps, s, item).store) == Ok(items + [item])
  {
    var key := KeyForName(deps.nameSpace, item.name);
    var entry := (key, deps.json.encode(item));
    var s' := AddItem(deps, s, item).store;
    var es := EntriesForNameSpace(deps.nameSpace, s);
    assert EntriesForNameSpace(deps.nameSpace, s') == es + [entry] by {
      EntriesForNameSpaceSnoc(deps.nameSpace, s, entry);
    }
    assert GetAllItemsForNameSpace(deps, s') == ParseEach(deps.json, es + [entry], []);
    ParseEachSnoc(deps.json, es, entry, []);
  }

  /** Appending an entry of the name space appends it to the name space's entries. */
  lemma EntriesForNameSpaceSnoc(nameSpace: string, s: Store, entry: Entry)
    requires CheckKeyForNameSpace(nameSpace, entry.0)
    requires UniqueKeys(s + [entry])
    ensures EntriesForNameSpace(nameSpace, s + [entry]) == EntriesForNameSpace(nameSpace, s) + [entry]
  {
    KeepKeysAppend(s, [entry], InNameSpace(nameSpace));
    assert InNameSpace(nameSpace)(entry.0);
    var single: seq<Entry> := [entry];
    assert single[1..] == [];
    assert KeepKeys(single, InNameSpace(nameSpace)) == single;
  }

  /** Extending the `reduce` of `getAllItemsForNameSpace` by one entry extends its result by one item. */
  lemma {:induction false} ParseEachSnoc<V>(json: Codec<V>, es: seq<Entry>, e: Entry, acc: seq<Item<V>>)
    ensures ParseEach(json, es + [e], acc) ==
              match ParseEach(json, es, acc)
              case Err(err) => Err(err)
              case Ok(items) =>
                match json.decode(e.1)
                case None => Err(FailedToParse)
                case Some(item) => Ok(items + [item])
  {
    if es == [] {
      assert [e][1..] == [];
    } else {
      assert (es + [e])[1..] == es[1..] + [e];
      match json.decode(es[0].1)
      case None =>
      case Some(item) => ParseEachSnoc(json, es[1..], e, acc + [item]);
    }
  }

  /** After `removeAllItemsForNameSpace`, `getAllItemsForNameSpace` lists nothing and no name is present. */
  lemma NothingLeftAfterRemoveAll<V>(deps: Dependencies<V>, s: Store, name: string)
    ensures GetAllItemsForNameSpace(deps, RemoveAllItemsForNameSpace(deps, s)) == Ok([])
    ensures !HasItem(deps, RemoveAllItemsForNameSpace(deps, s), name)
  {
    var r := RemoveAllItemsForNameSpace(deps, s);
    var es := EntriesForNameSpace(deps.nameSpace, r);
    var key := KeyForName(deps.nameSpace, name);
    if key in Keys(r) {
      assert false;
    }
  }

  /** `removeAllItemsForNameSpace` leaves every key outside the name space reading as before. */
  lemma RemoveAllKeepsForeignKeys<V>(deps: Dependencies<V>, s: Store, key: string)
    requires !CheckKeyForNameSpace(deps.nameSpace, key)
    ensures GetItem(RemoveAllItemsForNameSpace(deps, s), key) == GetItem(s, key)
  {
    GetItemKeepKeys(s, OutsideNameSpace(deps.nameSpace), key);
  }

  /**
   * The raw-prefix test lets a name space reach into every longer name space
   * it is a prefix of: clearing "a" also deletes every item of "ab".
   */
  lemma RemoveAllReachesLongerNameSpace<V>(deps: Dependencies<V>, longer: string, s: Store, name: string)
    requires deps.nameSpace <= longer
    ensures !HasItem(Dependencies(longer, deps.json), RemoveAllItemsForNameSpace(deps, s), name)
  {
    var key := KeyForName(longer, name);
    ShorterNameSpaceClaims(deps.nameSpace, longer, name);
    GetItemKeepKeys(s, OutsideNameSpace(deps.nameSpace), key);
  }

  /** Likewise `getAllItemsForNameSpace` of "a" fails on an unparsable item of "ab". */
  lemma GetAllReachesLongerNameSpace<V>(deps: Dependencies<V>, longer: string, s: Store, name: string, raw: string)
    requires deps.nameSpace <= longer
    requires (KeyForName(longer, name), raw) in s
    requires deps.json.decode(raw).None?
    ensures GetAllItemsForNameSpace(deps, s) == Err(FailedToParse)
  {
    ShorterNameSpaceClaims(deps.nameSpace, longer, name);
    UnparsableEntryFailsGetAll(deps, s, (KeyForName(longer, name), raw));
  }

  /**
   * When the name space's entries hold exactly the stringified `items`, in
   * order, and each of them parses back, the listing is `items`.
   */
  lemma GetAllOfEncoded<V>(deps: Dependencies<V>, s: Store, items: seq<Item<V>>)
    requires var es := EntriesForNameSpace(deps.nameSpace, s);
             && |es| == |items|
             && forall i :: 0 <= i < |es| ==> es[i].1 == deps.json.encode(items[i])
    requires forall i :: 0 <= i < |items| ==> RoundTrips(deps.json, items[i])
    ensures GetAllItemsForNameSpace(deps, s) == Ok(items)
  {
    var es := EntriesForNameSpace(deps.nameSpace, s);
    assert NameSpaceParses(deps, s) by {
      forall e | e in s && CheckKeyForNameSpace(deps.nameSpace, e.0)
        ensures deps.json.decode(e.1).Some?
      {
        assert e in es;
        var i :| 0 <= i < |es| && es[i] == e;
        assert RoundTrips(deps.json, items[i]);
      }
    }
    var r := GetAllItemsForNameSpace(deps, s);
    forall i | 0 <= i < |items|
      ensures r.value[i] == items[i]
    {
      assert RoundTrips(deps.json, items[i]);
    }
    assert r.value == items;
  }

  /** One unparsable entry of the name space makes `getAllItemsForNameSpace` fail. */
  lemma UnparsableEntryFailsGetAll<V>(deps: Dependencies<V>, s: Store, e: Entry)
    requires e in s && CheckKeyForNameSpace(deps.nameSpace, e.0)
    requires deps.json.decode(e.1).None?
    ensures GetAllItemsForNameSpace(deps, s) == Err(FailedToParse)
  {
  }

  /**
   * No writing action changes what a key outside the name space reads: the
   * actions of one name space never touch a key that fails its test.
   */
  lemma WritesKeepForeignKeys<V>(deps: Dependencies<V>, s: Store, item: Item<V>, name: string, k: string)
    requires !CheckKeyForNameSpace(deps.nameSpace, k)
    ensures GetItem(AddItem(deps, s, item).store, k) == GetItem(s, k)
    ensures GetItem(UpdateItem(deps, s, item).store, k) == GetItem(s, k)
    ensures GetItem(RemoveItemByName(deps, s, name).store, k) == GetItem(s, k)
    ensures GetItem(RemoveAllItemsForNameSpace(deps, s), k) == GetItem(s, k)
  {
    var key := KeyForName(deps.nameSpace, item.name);
    assert key != k;
    SetItemGetItem(s, key, deps.json.encode(item), k);
    RemoveItemGetItem(s, KeyForName(deps.nameSpace, name), k);
    RemoveAllKeepsForeignKeys(deps, s, k);
  }

  /**
   * An item's life cycle: add, read back, refuse a second add, update, read
   * back the update, remove, and the name is gone.
   */
  lemma LifeCycle<V>(deps: Dependencies<V>, s: Store, name: string, first: V, second: V)
    requires !HasItem(deps, s, name)
    requires RoundTrips(deps.json, Item(name, first)) && RoundTrips(deps.json, Item(name, second))
    ensures var added := AddItem(deps, s, Item(name, first));
            var updated := UpdateItem(deps, added.store, Item(name, second));
            var removed := RemoveItemByName(deps, updated.store, name);
            && added.result == Ok(Item(name, first))
            && GetItemByName(deps, added.store, name) == Ok(Item(name, first))
            && AddItem(deps, added.store, Item(name, second)).result == Err(ItemNotAddableConflictingItemName)
            && updated.result == Ok(Item(name, second))
            && GetItemByName(deps, updated.store, name) == Ok(Item(name, second))
            && removed.result == Ok(())
            && !HasItem(deps, removed.store, name)
  {
    var added := AddItem(deps, s, Item(name, first));
    GetAfterAdd(deps, s, Item(name, first));
    HasItemAfterAdd(deps, s, Item(name, first), name);
    AddTwiceConflicts(deps, s, Item(name, first), Item(name, second));
    var updated := UpdateItem(deps, added.store, Item(name, second));
    GetAfterUpdate(deps, added.store, Item(name, second));
    assert HasItem(deps, updated.store, name) by {
      assert Keys(updated.store) == Keys(added.store);
    }
    HasItemAfterRemove(deps, updated.store, name, name);
  }
}

=== FILE: backing_store.dfy ===
/**
 * The host's flat key/value store (the browser's `localStorage`), as the
 * actions see it: an ordered sequence of (key, raw value) pairs with unique
 * keys. Order is enumeration order; `setItem` on a present key keeps its
 * position, on a new key appends.
 */
module BackingStore {
  import opened Models

  /** A storage key and the raw string stored under it. */
  type Entry = (string, string)

  predicate UniqueKeys(s: seq<Entry>) {
    forall i, j :: 0 <= i < j < |s| ==> s[i].0 != s[j].0
  }

  type Store = s: seq<Entry> | UniqueKeys(s)

  /** The keys in enumeration order (`Object.keys(localStorage)`). */
  function Keys(s: seq<Entry>): (ks: seq<string>)
    ensures |ks| == |s|
    ensures forall i :: 0 <= i < |s| ==> ks[i] == s[i].0
  {
    seq(|s|, i requires 0 <= i < |s| => s[i].0)
  }

  /**
   * `Object.keys` built one entry at a time, as the host walks its storage
   * map: the first key, then the keys of the rest.
   */
  function KeysInOrder(s: seq<Entry>): seq<string> {
    if s == [] then [] else [s[0].0] + KeysInOrder(s[1..])
  }

  /** The listing `Keys` gives is exactly the entry-by-entry walk. */
  lemma {:induction false} KeysIsKeysInOrder(s: seq<Entry>)
    ensures Keys(s) == KeysInOrder(s)
  {
    if s != [] {
      KeysIsKeysInOrder(s[1..]);
      assert Keys(s) == [s[0].0] + Keys(s[1..]);
    }
  }

  /** A key is listed exactly when some entry carries it. */
  lemma KeysMember(s: seq<Entry>, k: string)
    ensures k in Keys(s) <==> exists i :: 0 <= i < |s| && s[i].0 == k
  {
    if k in Keys(s) {
      var i :| 0 <= i < |s| && Keys(s)[i] == k;
      assert s[i].0 == k;
    }
    if exists i :: 0 <= i < |s| && s[i].0 == k {
      var i :| 0 <= i < |s| && s[i].0 == k;
      assert Keys(s)[i] == k;
    }
  }

  /** `getItem`: the raw value under `k`, if any. */
  function GetItem(s: Store, k: string): (r: Option<string>)
    ensures r.Some? <==> k in Keys(s)
    ensures forall i :: 0 <= i < |s| && s[i].0 == k ==> r == Some(s[i].1)
  {
    if s == [] then None
    else if s[0].0 == k then Some(s[0].1)
    else
      KeysOfTail(s, k);
      GetItem(s[1..], k)
  }

  /** The position of a present key. */
  function IndexOf(s: Store, k: string): (i: nat)
    requires k in Keys(s)
    ensures i < |s| && s[i].0 == k
    ensures forall j :: 0 <= j < |s| && s[j].0 == k ==> j == i
  {
    if s[0].0 == k then 0
    else
      KeysOfTail(s, k);
      1 + IndexOf(s[1..], k)
  }

  /** `setItem`: overwrite a present key in place, or append a new one. */
  function SetItem(s: Store, k: string, v: string): (r: Store)
    ensures k in Keys(s) ==> r == s[IndexOf(s, k) := (k, v)]
    ensures k !in Keys(s) ==> r == s + [(k, v)]
  {
    if s == [] then [(k, v)]
    else if s[0].0 == k then
      assert Keys(s)[0] == k;
      UpdateKeepsUniqueKeys(s, 0, v);
      assert [(k, v)] + s[1..] == s[0 := (k, v)];
      [(k, v)] + s[1..]
    else
      var rest := SetItem(s[1..], k, v);
      SetItemCons(s, k, v, rest);
      [s[0]] + rest
  }

  /** One recursive step of `SetItem`: putting back a first entry with another key. */
  lemma SetItemCons(s: Store, k: string, v: string, rest: seq<Entry>)
    requires |s| > 0 && s[0].0 != k
    requires k in Keys(s[1..]) ==> rest == s[1..][IndexOf(s[1..], k) := (k, v)]
    requires k !in Keys(s[1..]) ==> rest == s[1..] + [(k, v)]
    ensures k in Keys(s) ==> [s[0]] + rest == s[IndexOf(s, k) := (k, v)]
    ensures k !in Keys(s) ==> [s[0]] + rest == s + [(k, v)]
    ensures UniqueKeys([s[0]] + rest)
  {
    KeysOfTail(s, k);
    var r := [s[0]] + rest;
    if k in Keys(s) {
      var j := IndexOf(s[1..], k);
      assert IndexOf(s, k) == j + 1;
      ConsUpdate(s, j, (k, v), rest);
      UpdateKeepsUniqueKeys(s, j + 1, v);
    } else {
      ConsAppend(s, (k, v), rest);
      AppendKeepsUniqueKeys(s, k, v);
    }
  }

  /** Putting the first entry back before the tail with its entry `j` replaced. */
  lemma ConsUpdate(s: seq<Entry>, j: nat, e: Entry, rest: seq<Entry>)
    requires j + 1 < |s|
    requires rest == s[1..][j := e]
    ensures [s[0]] + rest == s[j + 1 := e]
  {
    var r := [s[0]] + rest;
    assert forall i :: 0 <= i < |r| ==> r[i] == s[j + 1 := e][i];
  }

  /** Putting the first entry back before the tail with `e` appended. */
  lemma ConsAppend(s: seq<Entry>, e: Entry, rest: seq<Entry>)
    requires |s| > 0
    requires rest == s[1..] + [e]
    ensures [s[0]] + rest == s + [e]
  {
    assert [s[0]] + s[1..] == s;
  }

  /** Overwriting a value keeps the keys unique. */
  lemma UpdateKeepsUniqueKeys(s: Store, i: nat, v: string)
    requires i < |s|
    ensures UniqueKeys(s[i := (s[i].0, v)])
  {
    var r := s[i := (s[i].0, v)];
    forall a, b | 0 <= a < b < |r|
      ensures r[a].0 != r[b].0
    {
      assert r[a].0 == s[a].0 && r[b].0 == s[b].0;
    }
  }

  /** Appending a new key keeps the keys unique. */
  lemma AppendKeepsUniqueKeys(s: Store, k: string, v: string)
    requires k !in Keys(s)
    ensures UniqueKeys(s + [(k, v)])
  {
    KeysMember(s, k);
    var r := s + [(k, v)];
    forall a, b | 0 <= a < b < |r|
      ensures r[a].0 != r[b].0
    {
      assert r[a] == s[a];
    }
  }

  /** `removeItem`: delete a present key, closing the gap; an absent key is a no-op. */
  function RemoveItem(s: Store, k: string): (r: Store)
    ensures k in Keys(s) ==> r == s[..IndexOf(s, k)] + s[IndexOf(s, k) + 1..]
    ensures k !in Keys(s) ==> r == s
  {
    if s == [] then []
    else if s[0].0 == k then
      assert Keys(s)[0] == k;
      s[1..]
    else
      var rest := RemoveItem(s[1..], k);
      RemoveItemCons(s, k, rest);
      [s[0]] + rest
  }

  /** One recursive step of `RemoveItem`: putting back a first entry with another key. */
  lemma RemoveItemCons(s: Store, k: string, rest: seq<Entry>)
    requires |s| > 0 && s[0].0 != k
    requires k in Keys(s[1..]) ==> rest == s[1..][..IndexOf(s[1..], k)] + s[1..][IndexOf(s[1..], k) + 1..]
    requires k !in Keys(s[1..]) ==> rest == s[1..]
    ensures k in Keys(s) ==> [s[0]] + rest == s[..IndexOf(s, k)] + s[IndexOf(s, k) + 1..]
    ensures k !in Keys(s) ==> [s[0]] + rest == s
    ensures UniqueKeys([s[0]] + rest)
  {
    KeysOfTail(s, k);
    if k in Keys(s) {
      var j := IndexOf(s[1..], k);
      assert IndexOf(s, k) == j + 1;
      ConsDrop(s, j, rest);
      DropKeepsUniqueKeys(s, j + 1);
    } else {
      assert [s[0]] + rest == s;
    }
  }

  /** Putting the first entry back before the tail with its entry `j` dropped. */
  lemma ConsDrop(s: seq<Entry>, j: nat, rest: seq<Entry>)
    requires j + 1 < |s|
    requires rest == s[1..][..j] + s[1..][j + 1..]
    ensures [s[0]] + rest == s[..j + 1] + s[j + 2..]
  {
    assert s[1..][..j] == s[1..j + 1];
    assert s[1..][j + 1..] == s[j + 2..];
    assert [s[0]] + s[1..j + 1] == s[..j + 1];
  }

  /** Dropping one entry keeps the keys unique. */
  lemma DropKeepsUniqueKeys(s: Store, i: nat)
    requires i < |s|
    ensures UniqueKeys(s[..i] + s[i + 1..])
  {
    var r := s[..i] + s[i + 1..];
    forall a, b | 0 <= a < b < |r|
      ensures r[a].0 != r[b].0
    {
      var a' := if a < i then a else a + 1;
      var b' := if b < i then b else b + 1;
      assert r[a] == s[a'] && r[b] == s[b'];
    }
  }

  /** Past a first entry with a different key, `k` is present iff it is present in the tail. */
  lemma KeysOfTail(s: seq<Entry>, k: string)
    requires |s| > 0 && s[0].0 != k
    ensures k in Keys(s) <==> k in Keys(s[1..])
  {
    if k in Keys(s) {
      var i :| 0 <= i < |s| && Keys(s)[i] == k;
      assert Keys(s[1..])[i - 1] == k;
    }
    if k in Keys(s[1..]) {
      var i :| 0 <= i < |s[1..]| && Keys(s[1..])[i] == k;
      assert Keys(s)[i + 1] == k;
    }
  }

  /** The entries whose key satisfies `keep`, in enumeration order (`Object.entries(...).filter`). */
  function KeepKeys(s: seq<Entry>, keep: string -> bool): (r: seq<Entry>)
    ensures forall e :: e in r <==> e in s && keep(e.0)
    ensures UniqueKeys(s) ==> UniqueKeys(r)
  {
    if s == [] then []
    else if keep(s[0].0) then
      var rest := KeepKeys(s[1..], keep);
      assert UniqueKeys(s) ==> forall e :: e in rest ==> e.0 != s[0].0 by {
        if UniqueKeys(s) {
          forall e | e in rest
            ensures e.0 != s[0].0
          {
            var i :| 0 <= i < |s[1..]| && s[1..][i] == e;
            assert s[i + 1] == e;
          }
        }
      }
      [s[0]] + rest
    else
      KeepKeys(s[1..], keep)
  }

  /** Filtering distributes over concatenation: it keeps the relative order of what it keeps. */
  lemma {:induction false} KeepKeysAppend(a: seq<Entry>, b: seq<Entry>, keep: string -> bool)
    ensures KeepKeys(a + b, keep) == KeepKeys(a, keep) + KeepKeys(b, keep)
  {
    if a == [] {
      assert a + b == b;
    } else {
      assert (a + b)[1..] == a[1..] + b;
      KeepKeysAppend(a[1..], b, keep);
    }
  }

  /** Filtering depends only on what `keep` says about the keys present. */
  lemma {:induction false} KeepKeysPointwise(s: seq<Entry>, p: string -> bool, q: string -> bool)
    requires forall i :: 0 <= i < |s| ==> p(s[i].0) == q(s[i].0)
    ensures KeepKeys(s, p) == KeepKeys(s, q)
  {
    if s != [] {
      KeepKeysPointwise(s[1..], p, q);
    }
  }

  /** Filtering twice is filtering once by both conditions. */
  lemma {:induction false} KeepKeysTwice(s: seq<Entry>, p: string -> bool, q: string -> bool, both: string -> bool)
    requires forall x :: both(x) == (p(x) && q(x))
    ensures KeepKeys(KeepKeys(s, p), q) == KeepKeys(s, both)
  {
    if s != [] {
      KeepKeysTwice(s[1..], p, q, both);
    }
  }

  /** The filter that drops exactly the key `k`. */
  function AllBut(k: string): string -> bool
  {
    x => x != k
  }

  /** Removing a key is filtering out that key. */
  lemma {:induction false} RemoveItemIsKeepKeys(s: Store, k: string)
    ensures RemoveItem(s, k) == KeepKeys(s, AllBut(k))
  {
    if s != [] {
      if s[0].0 == k {
        KeepKeysAll(s[1..], AllBut(k));
      } else {
        RemoveItemIsKeepKeys(s[1..], k);
      }
    }
  }

  /** A filter that keeps every key present keeps the sequence. */
  lemma {:induction false} KeepKeysAll(s: seq<Entry>, keep: string -> bool)
    requires forall i :: 0 <= i < |s| ==> keep(s[i].0)
    ensures KeepKeys(s, keep) == s
  {
    if s != [] {
      KeepKeysAll(s[1..], keep);
    }
  }

  /** Reading a filtered store: kept keys read as before, dropped keys read as absent. */
  lemma GetItemKeepKeys(s: Store, keep: string -> bool, k: string)
    ensures GetItem(KeepKeys(s, keep), k) == if keep(k) then GetItem(s, k) else None
  {
    var r: Store := KeepKeys(s, keep);
    if GetItem(r, k).Some? {
      var i :| 0 <= i < |r| && Keys(r)[i] == k;
      assert r[i] in s;
      var j :| 0 <= j < |s| && s[j] == r[i];
    }
  }

  /** `setItem` then `getItem`: the written key reads the new value, every other key reads as before. */
  lemma {:induction false} SetItemGetItem(s: Store, k: string, v: string, k': string)
    ensures GetItem(SetItem(s, k, v), k') == if k' == k then Some(v) else GetItem(s, k')
  {
    var r := SetItem(s, k, v);
    if s == [] {
      assert r[1..] == [];
    } else if s[0].0 == k {
      assert r[1..] == s[1..];
    } else {
      assert r[1..] == SetItem(s[1..], k, v);
      SetItemGetItem(s[1..], k, v, k');
    }
  }

  /** `removeItem` then `getItem`: the removed key reads as absent, every other key reads as before. */
  lemma RemoveItemGetItem(s: Store, k: string, k': string)
    ensures GetItem(RemoveItem(s, k), k') == if k' == k then None else GetItem(s, k')
  {
    RemoveItemIsKeepKeys(s, k);
    GetItemKeepKeys(s, AllBut(k), k');
  }
}

=== FILE: fixture_scenarios.dfy ===
/**
 * The fixture of the actions' test suite: five items seeded in this order
 * under one name space, with arbitrary raw values. The suite uses the name
 * space "name_space" and, as the foreign one, "other_name_space"; the
 * lemmas hold for any such pair.
 */
module FixtureScenarios {
  import opened Models
  import opened BackingStore
  import opened NameSpace
  import opened LocalStorageActions
  import opened ActionProperties

  const Names: seq<string> := ["string", "number", "boolean", "array", "object"]

  /**
   * The suite's set-up: clear the store, then `setItem` the first `n` names
   * one after another. Each name's key is new, so each lands at the end.
   */
  function Seed(nameSpace: string, raws: seq<string>, n: nat): (s: Store)
    requires |raws| == 5 && n <= 5
    ensures |s| == n
    ensures forall i :: 0 <= i < n ==> s[i] == (KeyForName(nameSpace, Names[i]), raws[i])
  {
    if n == 0 then []
    else
      var prev := Seed(nameSpace, raws, n - 1);
      var key := KeyForName(nameSpace, Names[n - 1]);
      assert key !in Keys(prev) by {
        forall i | 0 <= i < n - 1
          ensures Keys(prev)[i] != key
        {
          KeyForNameInjective(nameSpace, Names[i], Names[n - 1]);
        }
      }
      SetItem(prev, key, raws[n - 1])
  }

  /** The seeded store; `raws[i]` is the raw value of `Names[i]`. */
  function Fixture(nameSpace: string, raws: seq<string>): (s: Store)
    requires |raws| == 5
    ensures |s| == 5
    ensures forall i :: 0 <= i < 5 ==> s[i] == (KeyForName(nameSpace, Names[i]), raws[i])
  {
    Seed(nameSpace, raws, 5)
  }

  /** A second name space whose keys the first one's test rejects. */
  predicate Foreign(nameSpace: string, other: string)
  {
    |nameSpace| <= |other| && !(nameSpace <= other)
  }

  /** The suite's two name spaces are foreign to each other in this sense. */
  lemma SuiteNameSpacesAreForeign()
    ensures Foreign("name_space", "other_name_space")
  {
    assert "other_name_space"[0] != "name_space"[0];
  }

  /** `hasItem` finds a seeded name and misses an unseeded one. */
  lemma FixtureHasItem<V>(deps: Dependencies<V>, raws: seq<string>)
    requires |raws| == 5
    ensures HasItem(deps, Fixture(deps.nameSpace, raws), "number")
    ensures !HasItem(deps, Fixture(deps.nameSpace, raws), "other")
  {
    var s := Fixture(deps.nameSpace, raws);
    assert Keys(s)[1] == KeyForName(deps.nameSpace, "number");
    forall i | 0 <= i < 5
      ensures Keys(s)[i] != KeyForName(deps.nameSpace, "other")
    {
      KeyForNameInjective(deps.nameSpace, Names[i], "other");
    }
  }

  /** Adding a seeded name throws the conflict and leaves keys and order as seeded. */
  lemma FixtureAddConflict<V>(deps: Dependencies<V>, raws: seq<string>, value: V)
    requires |raws| == 5
    ensures AddItem(deps, Fixture(deps.nameSpace, raws), Item("number", value))
            == Reply(Err(ItemNotAddableConflictingItemName), Fixture(deps.nameSpace, raws))
  {
    FixtureHasItem(deps, raws);
  }

  /** Updating an unseeded name throws `ItemNotFound` and leaves the store as seeded. */
  lemma FixtureUpdateMissing<V>(deps: Dependencies<V>, raws: seq<string>, value: V)
    requires |raws| == 5
    ensures UpdateItem(deps, Fixture(deps.nameSpace, raws), Item("other", value))
            == Reply(Err(ItemNotFound), Fixture(deps.nameSpace, raws))
  {
    FixtureHasItem(deps, raws);
  }

  /** Reading an unseeded name throws `ItemNotFound`; removing it throws `ItemNotRemovable`. */
  lemma FixtureMissingName<V>(deps: Dependencies<V>, raws: seq<string>)
    requires |raws| == 5
    ensures GetItemByName(deps, Fixture(deps.nameSpace, raws), "other") == Err(ItemNotFound)
    ensures RemoveItemByName(deps, Fixture(deps.nameSpace, raws), "other")
            == Reply(Err(ItemNotRemovable), Fixture(deps.nameSpace, raws))
  {
    FixtureHasItem(deps, raws);
  }

  /** Removing "number" deletes its entry; the other four keep their order. */
  lemma FixtureRemoveNumber<V>(deps: Dependencies<V>, raws: seq<string>)
    requires |raws| == 5
    ensures var s := Fixture(deps.nameSpace, raws);
            RemoveItemByName(deps, s, "number").store == [s[0], s[2], s[3], s[4]]
  {
    var s := Fixture(deps.nameSpace, raws);
    FixtureHasItem(deps, raws);
    assert IndexOf(s, KeyForName(deps.nameSpace, "number")) == 1 by {
      assert s[1].0 == KeyForName(deps.nameSpace, "number");
    }
  }

  /** The fixture plus one item "string" of a foreign name space, seeded last. */
  function WithForeignItem(nameSpace: string, other: string, raws: seq<string>, otherRaw: string): (s: Store)
    requires |raws| == 5
    requires Foreign(nameSpace, other)
    ensures s == Fixture(nameSpace, raws) + [(KeyForName(other, "string"), otherRaw)]
  {
    var s := Fixture(nameSpace, raws);
    var key := KeyForName(other, "string");
    assert key !in Keys(s) by {
      ShorterNameSpaceClaims(nameSpace, other, "string");
      forall i | 0 <= i < 5
        ensures Keys(s)[i] != key
      {
        assert CheckKeyForNameSpace(nameSpace, Keys(s)[i]);
      }
    }
    SetItem(s, key, otherRaw)
  }

  /** Removing everything of the name space leaves only the foreign entry. */
  lemma FixtureRemoveAll<V>(deps: Dependencies<V>, other: string, raws: seq<string>, otherRaw: string)
    requires |raws| == 5
    requires Foreign(deps.nameSpace, other)
    ensures RemoveAllItemsForNameSpace(deps, WithForeignItem(deps.nameSpace, other, raws, otherRaw))
            == [(KeyForName(other, "string"), otherRaw)]
  {
    var s := WithForeignItem(deps.nameSpace, other, raws, otherRaw);
    var f := Fixture(deps.nameSpace, raws);
    var outside := OutsideNameSpace(deps.nameSpace);
    ShorterNameSpaceClaims(deps.nameSpace, other, "string");
    KeepKeysAppend(f, [s[5]], outside);
    assert KeepKeys(f, outside) == [] by {
      forall i | 0 <= i < |f|
        ensures !outside(f[i].0)
      {
        assert CheckKeyForNameSpace(deps.nameSpace, f[i].0);
      }
      KeepKeysNone(f, outside);
    }
    var single: seq<Entry> := [s[5]];
    assert single[1..] == [];
  }

  /** A filter that keeps none of the keys present keeps nothing. */
  lemma {:induction false} KeepKeysNone(s: seq<Entry>, keep: string -> bool)
    requires forall i :: 0 <= i < |s| ==> !keep(s[i].0)
    ensures KeepKeys(s, keep) == []
  {
    if s != [] {
      KeepKeysNone(s[1..], keep);
    }
  }

  /** The seeded items, `Names[i]` carrying `values[i]`. */
  function Items<V>(values: seq<V>): seq<Item<V>>
    requires |values| == 5
  {
    seq(5, i requires 0 <= i < 5 => Item(Names[i], values[i]))
  }

  /** The raw values the suite seeds: each item stringified. */
  function Encoded<V>(json: Codec<V>, items: seq<Item<V>>): (raws: seq<string>)
    ensures |raws| == |items|
    ensures forall i :: 0 <= i < |items| ==> raws[i] == json.encode(items[i])
  {
    if items == [] then [] else [json.encode(items[0])] + Encoded(json, items[1..])
  }

  /** The name-space filter drops the foreign item and keeps the five seeded entries in order. */
  lemma ForeignItemFilteredOut(nameSpace: string, other: string, raws: seq<string>, otherRaw: string)
    requires |raws| == 5
    requires Foreign(nameSpace, other)
    ensures EntriesForNameSpace(nameSpace, WithForeignItem(nameSpace, other, raws, otherRaw)) == Fixture(nameSpace, raws)
  {
    var f := Fixture(nameSpace, raws);
    var s := WithForeignItem(nameSpace, other, raws, otherRaw);
    var inside := InNameSpace(nameSpace);
    ShorterNameSpaceClaims(nameSpace, other, "string");
    KeepKeysAppend(f, [s[5]], inside);
    forall i | 0 <= i < |f|
      ensures inside(f[i].0)
    {
      assert CheckKeyForNameSpace(nameSpace, f[i].0);
    }
    KeepKeysAll(f, inside);
    var single: seq<Entry> := [s[5]];
    assert single[1..] == [];
  }

  /**
   * `getAllItemsForNameSpace` on the fixture plus a foreign item lists the
   * five seeded items, in seeding order, and nothing else.
   */
  lemma FixtureGetAll<V>(deps: Dependencies<V>, other: string, values: seq<V>, otherRaw: string)
    requires |values| == 5
    requires Foreign(deps.nameSpace, other)
    requires forall i :: 0 <= i < 5 ==> RoundTrips(deps.json, Items(values)[i])
    ensures GetAllItemsForNameSpace(deps, WithForeignItem(deps.nameSpace, other, Encoded(deps.json, Items(values)), otherRaw))
            == Ok(Items(values))
  {
    var items := Items(values);
    var raws := Encoded(deps.json, items);
    var s := WithForeignItem(deps.nameSpace, other, raws, otherRaw);
    ForeignItemFilteredOut(deps.nameSpace, other, raws, otherRaw);
    GetAllOfEncoded(deps, s, items);
  }

  /** On an empty store `getAllItemsForNameSpace` lists nothing. */
  lemma EmptyGetAll<V>(deps: Dependencies<V>)
    ensures GetAllItemsForNameSpace(deps, []) == Ok([])
  {
  }

  /** A single unparsable seeded value makes `getAllItemsForNameSpace` throw `FailedToParse`. */
  lemma CorruptedGetAll<V>(deps: Dependencies<V>, raw: string)
    requires deps.json.decode(raw).None?
    ensures GetAllItemsForNameSpace(deps, [(KeyForName(deps.nameSpace, "string"), raw)]) == Err(FailedToParse)
  {
    var s: Store := [(KeyForName(deps.nameSpace, "string"), raw)];
    UnparsableEntryFailsGetAll(deps, s, s[0]);
  }

  /** `getItemByName("array")` on the fixture gives back the seeded item. */
  lemma FixtureGetArray<V>(deps: Dependencies<V>, values: seq<V>)
    requires |values| == 5
    requires RoundTrips(deps.json, Items(values)[3])
    ensures GetItemByName(deps, Fixture(deps.nameSpace, Encoded(deps.json, Items(values))), "array")
            == Ok(Item("array", values[3]))
  {
    var s := Fixture(deps.nameSpace, Encoded(deps.json, Items(values)));
    assert s[3].0 == KeyForName(deps.nameSpace, "array");
    assert GetItem(s, KeyForName(deps.nameSpace, "array")) == Some(s[3].1);
  }
}

=== FILE: local_storage_actions.dfy ===
/**
 * The seven actions `createLocalStorageActions` returns, as pure functions
 * of the store: a reading action returns its result, a writing action a
 * `Reply` holding its result and the store it leaves behind.
 */
module LocalStorageActions {
  import opened Models
  import opened BackingStore
  import opened NameSpace

  /**
   * What the factory closes over besides the store itself: the name space,
   * and the JSON codec (the global `JSON` object) the actions call.
   */
  datatype Dependencies<!V> = Dependencies(nameSpace: string, json: Codec<V>)

  /** A writing action's result together with the store after the call. */
  datatype Reply<+T> = Reply(result: Result<T>, store: Store)

  /** The key filter of the "all" actions, as a function value. */
  function InNameSpace(nameSpace: string): string -> bool
  {
    key => CheckKeyForNameSpace(nameSpace, key)
  }

  /** The complement of `InNameSpace`. */
  function OutsideNameSpace(nameSpace: string): string -> bool
  {
    key => !CheckKeyForNameSpace(nameSpace, key)
  }

  /** The entries the "all" actions act on, in enumeration order. */
  function EntriesForNameSpace(nameSpace: string, s: Store): (r: Store)
    ensures forall e :: e in r <==> e in s && CheckKeyForNameSpace(nameSpace, e.0)
  {
    KeepKeys(s, InNameSpace(nameSpace))
  }

  /** `checkLocalStorageForName`: the name's key is one of the store's keys. */
  predicate CheckLocalStorageForName<V>(deps: Dependencies<V>, s: Store, name: string)
  {
    KeyForName(deps.nameSpace, name) in Keys(s)
  }

  /** The name is known exactly when some entry of the store carries the name's key. */
  lemma CheckLocalStorageForNameScans<V>(deps: Dependencies<V>, s: Store, name: string)
    ensures CheckLocalStorageForName(deps, s, name) <==> exists i :: 0 <= i < |s| && s[i].0 == KeyForName(deps.nameSpace, name)
  {
    var key := KeyForName(deps.nameSpace, name);
    if key in Keys(s) {
      var i :| 0 <= i < |s| && Keys(s)[i] == key;
      assert s[i].0 == key;
    }
    if exists i :: 0 <= i < |s| && s[i].0 == key {
      var i :| 0 <= i < |s| && s[i].0 == key;
      assert Keys(s)[i] == key;
    }
  }

  /** `tryToParseRawValue`: parse a raw value, turning a parse failure into `FailedToParse`. */
  function TryToParseRawValue<V>(json: Codec<V>, raw: string): Result<Item<V>>
  {
    match json.decode(raw)
    case None => Err(FailedToParse)
    case Some(item) => Ok(item)
  }

  /** `hasItem`: whether the store holds a value under the name's key. */
  function HasItem<V>(deps: Dependencies<V>, s: Store, name: string): (b: bool)
    ensures b <==> GetItem(s, KeyForName(deps.nameSpace, name)).Some?
  {
    CheckLocalStorageForName(deps, s, name)
  }

  /**
   * `addItem`: refuse a name already present, leaving the store as it was;
   * otherwise append the stringified item under the name's key and return
   * the item as passed.
   */
  function AddItem<V>(deps: Dependencies<V>, s: Store, item: Item<V>): (r: Reply<Item<V>>)
    ensures HasItem(deps, s, item.name) ==> r == Reply(Err(ItemNotAddableConflictingItemName), s)
    ensures !HasItem(deps, s, item.name) ==>
              && r.result == Ok(item)
              && r.store == s + [(KeyForName(deps.nameSpace, item.name), deps.json.encode(item))]
  {
    if CheckLocalStorageForName(deps, s, item.name) then
      Reply(Err(ItemNotAddableConflictingItemName), s)
    else
      var key := KeyForName(deps.nameSpace, item.name);
      Reply(Ok(item), SetItem(s, key, deps.json.encode(item)))
  }

  /**
   * `getItemByName`: `ItemNotFound` for an absent name; otherwise the parsed
   * raw value under the name's key, or `FailedToParse`.
   */
  function GetItemByName<V>(deps: Dependencies<V>, s: Store, name: string): (r: Result<Item<V>>)
    ensures r == Err(ItemNotFound) <==> !HasItem(deps, s, name)
    ensures r == Err(FailedToParse) <==>
              && HasItem(deps, s, name)
              && deps.json.decode(GetItem(s, KeyForName(deps.nameSpace, name)).value).None?
    ensures r.Ok? ==>
              && HasItem(deps, s, name)
              && deps.json.decode(GetItem(s, KeyForName(deps.nameSpace, name)).value) == Some(r.value)
    ensures HasItem(deps, s, name) && deps.json.decode(GetItem(s, KeyForName(deps.nameSpace, name)).value).Some? ==>
              r == Ok(deps.json.decode(GetItem(s, KeyForName(deps.nameSpace, name)).value).value)
  {
    if CheckLocalStorageForName(deps, s, name) then
      var key := KeyForName(deps.nameSpace, name);
      TryToParseRawValue(deps.json, GetItem(s, key).value)
    else
      Err(ItemNotFound)
  }

  /**
   * The `reduce` of `getAllItemsForNameSpace`: parse each raw value in turn,
   * appending to `acc`; the first value that does not parse aborts the whole
   * fold with `FailedToParse`.
   */
  function ParseEach<V>(json: Codec<V>, es: seq<Entry>, acc: seq<Item<V>>): (r: Result<seq<Item<V>>>)
    ensures r.Ok? <==> forall i :: 0 <= i < |es| ==> json.decode(es[i].1).Some?
    ensures r.Err? ==> r.error == FailedToParse
    ensures r.Ok? ==>
              && |r.value| == |acc| + |es|
              && r.value[..|acc|] == acc
              && forall i :: 0 <= i < |es| ==> json.decode(es[i].1) == Some(r.value[|acc| + i])
  {
    if es == [] then Ok(acc)
    else
      match TryToParseRawValue(json, es[0].1)
      case Err(e) => Err(e)
      case Ok(item) =>
        var r := ParseEach(json, es[1..], acc + [item]);
        assert r.Ok? ==> r.value[..|acc|] == (r.value[..|acc| + 1])[..|acc|];
        r
  }

  /** Every entry whose key passes the name-space test holds a value that parses. */
  ghost predicate NameSpaceParses<V>(deps: Dependencies<V>, s: Store)
  {
    forall e :: e in s && CheckKeyForNameSpace(deps.nameSpace, e.0) ==> deps.json.decode(e.1).Some?
  }

  /**
   * `getAllItemsForNameSpace`: the parsed values of exactly the entries whose
   * key passes the name-space test, in enumeration order, or `FailedToParse`
   * when any of them does not parse.
   */
  function GetAllItemsForNameSpace<V>(deps: Dependencies<V>, s: Store): (r: Result<seq<Item<V>>>)
    ensures r.Ok? <==> NameSpaceParses(deps, s)
    ensures r.Err? ==> r.error == FailedToParse
    ensures r.Ok? ==>
              var es := EntriesForNameSpace(deps.nameSpace, s);
              && |r.value| == |es|
              && forall i :: 0 <= i < |es| ==> deps.json.decode(es[i].1) == Some(r.value[i])
  {
    var es := EntriesForNameSpace(deps.nameSpace, s);
    var r := ParseEach(deps.json, es, []);
    assert r.Ok? <==> NameSpaceParses(deps, s) by {
      if !r.Ok? {
        var i :| 0 <= i < |es| && deps.json.decode(es[i].1).None?;
        assert es[i] in s;
      }
      if r.Ok? {
        forall e | e in s && CheckKeyForNameSpace(deps.nameSpace, e.0)
          ensures deps.json.decode(e.1).Some?
        {
          assert e in es;
        }
      }
    }
    r
  }

  /**
   * `updateItem`: `ItemNotFound` for an absent name, with the store as it
   * was; otherwise overwrite the value under the name's key in place and
   * return the item as passed.
   */
  function UpdateItem<V>(deps: Dependencies<V>, s: Store, item: Item<V>): (r: Reply<Item<V>>)
    ensures !HasItem(deps, s, item.name) ==> r == Reply(Err(ItemNotFound), s)
    ensures HasItem(deps, s, item.name) ==>
              var key := KeyForName(deps.nameSpace, item.name);
              && r.result == Ok(item)
              && r.store == s[IndexOf(s, key) := (key, deps.json.encode(item))]
  {
    if CheckLocalStorageForName(deps, s, item.name) then
      var key := KeyForName(deps.nameSpace, item.name);
      Reply(Ok(item), SetItem(s, key, deps.json.encode(item)))
    else
      Reply(Err(ItemNotFound), s)
  }

  /**
   * `removeItemByName`: `ItemNotRemovable` for an absent name, with the
   * store as it was; otherwise delete the name's entry, the others keeping
   * their order.
   */
  function RemoveItemByName<V>(deps: Dependencies<V>, s: Store, name: string): (r: Reply<()>)
    ensures !HasItem(deps, s, name) ==> r == Reply(Err(ItemNotRemovable), s)
    ensures HasItem(deps, s, name) ==>
              var i := IndexOf(s, KeyForName(deps.nameSpace, name));
              && r.result == Ok(())
              && r.store == s[..i] + s[i + 1..]
  {
    if CheckLocalStorageForName(deps, s, name) then
      Reply(Ok(()), RemoveItem(s, KeyForName(deps.nameSpace, name)))
    else
      Reply(Err(ItemNotRemovable), s)
  }

  /** The keys not in `ks`, as a filter. */
  function NotIn(ks: seq<string>): string -> bool
  {
    key => key !in ks
  }

  /** The `forEach` of `removeAllItemsForNameSpace`: `removeItem` on each key in turn. */
  function RemoveEach(s: Store, ks: seq<string>): (r: Store)
    ensures r == KeepKeys(s, NotIn(ks))
  {
    if ks == [] then
      KeepKeysAll(s, NotIn(ks));
      s
    else
      var r := RemoveEach(RemoveItem(s, ks[0]), ks[1..]);
      RemoveItemIsKeepKeys(s, ks[0]);
      KeepKeysTwice(s, AllBut(ks[0]), NotIn(ks[1..]), NotIn(ks));
      r
  }

  /**
   * `removeAllItemsForNameSpace`: take the keys passing the name-space test,
   * then remove each. What is left is exactly the entries whose key fails
   * the test, in their original order.
   */
  function RemoveAllItemsForNameSpace<V>(deps: Dependencies<V>, s: Store): (r: Store)
    ensures r == KeepKeys(s, OutsideNameSpace(deps.nameSpace))
    ensures forall k :: k in Keys(r) ==> !CheckKeyForNameSpace(deps.nameSpace, k)
  {
    var ks := Keys(EntriesForNameSpace(deps.nameSpace, s));
    var r := RemoveEach(s, ks);
    SnapshotIsNameSpaceTest(deps.nameSpace, s);
    KeepKeysPointwise(s, NotIn(ks), OutsideNameSpace(deps.nameSpace));
    NoKeyLeftInNameSpace(deps.nameSpace, s);
    r
  }

  /** On the store's own entries, "not in the snapshot of keys" and "fails the test" agree. */
  lemma SnapshotIsNameSpaceTest(nameSpace: string, s: Store)
    ensures var ks := Keys(EntriesForNameSpace(nameSpace, s));
            forall i :: 0 <= i < |s| ==> NotIn(ks)(s[i].0) == OutsideNameSpace(nameSpace)(s[i].0)
  {
    var es := EntriesForNameSpace(nameSpace, s);
    var ks := Keys(es);
    forall i | 0 <= i < |s|
      ensures NotIn(ks)(s[i].0) == OutsideNameSpace(nameSpace)(s[i].0)
    {
      KeysMember(es, s[i].0);
      if s[i].0 in ks {
        var j :| 0 <= j < |es| && es[j].0 == s[i].0;
        assert es[j] in s;
      } else {
        assert s[i] in s;
      }
    }
  }

  /** No key of the filtered store passes the name-space test. */
  lemma NoKeyLeftInNameSpace(nameSpace: string, s: Store)
    ensures var r := KeepKeys(s, OutsideNameSpace(nameSpace));
            forall k :: k in Keys(r) ==> !CheckKeyForNameSpace(nameSpace, k)
  {
    var r := KeepKeys(s, OutsideNameSpace(nameSpace));
    forall k | k in Keys(r)
      ensures !CheckKeyForNameSpace(nameSpace, k)
    {
      KeysMember(r, k);
      var j :| 0 <= j < |r| && r[j].0 == k;
      assert r[j] in r;
    }
  }
}

=== FILE: models.dfy ===
/** The item shape and the error kinds shared by the local storage actions. */
module Models {

  /** A named value; the unit the actions store under one storage key. */
  datatype Item<V> = Item(name: string, value: V)

  /** The four error kinds the actions raise themselves. */
  datatype ActionError =
    | FailedToParse
    | ItemNotFound
    | ItemNotAddableConflictingItemName
    | ItemNotRemovable

  datatype Option<+T> = None | Some(value: T)

  /** What an action returns: its value, or the error it throws. */
  datatype Result<+T> = Ok(value: T) | Err(error: ActionError)

  /**
   * The JSON codec the actions use on items. `encode` stands for
   * `JSON.stringify`; `decode` stands for `JSON.parse` followed by the
   * unchecked cast to an item, with `None` for a string that does not parse.
   */
  datatype Codec<!V> = Codec(encode: Item<V> -> string, decode: string -> Option<Item<V>>)

  /** Parsing what `item` was stringified to gives back the same item. */
  ghost predicate RoundTrips<V>(json: Codec<V>, item: Item<V>) {
    json.decode(json.encode(item)) == Some(item)
  }
}

=== FILE: name_space.dfy ===
/**
 * Storage keys: how an item name becomes a key of the shared store, and the
 * test that decides whether a key belongs to the configured name space.
 */
module NameSpace {
  import opened Models

  /** The fixed separator between a name space and an item name. */
  const Separator: string := "__"

  /**
   * `String.prototype.slice(start, end)` for non-negative arguments: both
   * bounds are clamped to the string's length, and an empty string results
   * when the start lies past the end.
   */
  function Slice(s: string, start: nat, end: nat): (r: string)
    ensures end <= |s| && start <= end ==> r == s[start..end]
    ensures |s| < end && start <= |s| ==> r == s[start..]
    ensures end <= start ==> r == []
    ensures |r| <= |s|
  {
    var e := if end < |s| then end else |s|;
    var b := if start < e then start else e;
    s[b..e]
  }

  /**
   * `checkLocalStorageKeyForNameSpace`: the key starts with the name space.
   * The separator is not part of the test. `checkLocalStorageKeyForNameSpace`
   * in `localStorageActions.ts` compares a slice of the key with the name
   * space; `CheckIsSlice` shows the two agree.
   */
  predicate CheckKeyForNameSpace(nameSpace: string, key: string)
  {
    nameSpace <= key
  }

  /** `keyForName`: the storage key of an item name. */
  function KeyForName(nameSpace: string, name: string): (key: string)
    ensures CheckKeyForNameSpace(nameSpace, key)
  {
    nameSpace + Separator + name
  }

  /**
   * The inverse of `KeyForName`: the item name a key stands for when it
   * starts with the name space and the separator.
   */
  function NameOfKey(nameSpace: string, key: string): Option<string>
  {
    var n := |nameSpace| + |Separator|;
    if n <= |key| && key[..n] == nameSpace + Separator then Some(key[n..]) else None
  }

  /**
   * The test of `checkLocalStorageKeyForNameSpace`,
   * `key.slice(0, nameSpace.length) === nameSpace`, holds
   * exactly when the name space is a raw prefix of the key.
   */
  lemma CheckIsSlice(nameSpace: string, key: string)
    ensures CheckKeyForNameSpace(nameSpace, key) <==> Slice(key, 0, |nameSpace|) == nameSpace
  {
    if |key| < |nameSpace| {
      assert |Slice(key, 0, |nameSpace|)| < |nameSpace|;
    } else {
      assert Slice(key, 0, |nameSpace|) == key[..|nameSpace|];
    }
  }

  /** Reading the name back out of its key gives the name. */
  lemma NameOfKeyForName(nameSpace: string, name: string)
    ensures NameOfKey(nameSpace, KeyForName(nameSpace, name)) == Some(name)
  {
    var key := KeyForName(nameSpace, name);
    var n := |nameSpace| + |Separator|;
    assert key[..n] == nameSpace + Separator;
    assert key[n..] == name;
  }

  /** The test compares the key with the name space character by character. */
  lemma CheckIsPrefix(nameSpace: string, key: string)
    ensures CheckKeyForNameSpace(nameSpace, key) <==>
              |nameSpace| <= |key| && forall i :: 0 <= i < |nameSpace| ==> key[i] == nameSpace[i]
  {
    if |nameSpace| <= |key| && forall i :: 0 <= i < |nameSpace| ==> key[i] == nameSpace[i] {
      assert key[..|nameSpace|] == nameSpace;
    }
  }

  /** Within one name space, distinct names give distinct keys. */
  lemma KeyForNameInjective(nameSpace: string, a: string, b: string)
    ensures KeyForName(nameSpace, a) == KeyForName(nameSpace, b) ==> a == b
  {
    NameOfKeyForName(nameSpace, a);
    NameOfKeyForName(nameSpace, b);
  }

  /** Every key that decodes to a name is that name's key. */
  lemma NameOfKeyInverse(nameSpace: string, key: string)
    ensures NameOfKey(nameSpace, key).Some? ==> KeyForName(nameSpace, NameOfKey(nameSpace, key).value) == key
  {
    var n := |nameSpace| + |Separator|;
    if NameOfKey(nameSpace, key).Some? {
      assert key == key[..n] + key[n..];
    }
  }

  /**
   * For a name space no longer than another, the keys of the other name space
   * pass its test exactly when it is a prefix of the other. So "a" claims
   * every key of "ab".
   */
  lemma {:induction false} ShorterNameSpaceClaims(nameSpace: string, other: string, name: string)
    requires |nameSpace| <= |other|
    ensures CheckKeyForNameSpace(nameSpace, KeyForName(other, name)) <==> nameSpace <= other
  {
    var key := KeyForName(other, name);
    assert key[..|other|] == other;
    assert key[..|nameSpace|] == other[..|nameSpace|];
  }

  /** A key that passes the test of "a" without being of the form "a__name". */
  lemma CheckIgnoresSeparator()
    ensures CheckKeyForNameSpace("a", "ab__x") && NameOfKey("a", "ab__x") == None
  {
    CheckIsSlice("a", "ab__x");
    var key := "ab__x";
    assert key[..3][1] == 'b';
    assert ("a" + Separator)[1] == '_';
  }

  /** Different name spaces can share a key: the separator may occur inside a name. */
  lemma KeysCollideAcrossNameSpaces()
    ensures KeyForName("a", "b__c") == KeyForName("a__b", "c")
  {
    var joined := "a__b__c";
    assert KeyForName("a", "b__c") == joined by {
      assert forall i :: 0 <= i < |joined| ==> ("a" + Separator + "b__c")[i] == joined[i];
    }
    assert KeyForName("a__b", "c") == joined by {
      assert forall i :: 0 <= i < |joined| ==> ("a__b" + Separator + "c")[i] == joined[i];
    }
  }
}
